=== FILE: README.md ===
# ofxRepl console, modelled in Dafny

This project models the read-eval-print console of ofxGLEditor, the class
`ofxRepl` in `src/ofxRepl.cpp`. The console is a text editor buffer with extra
rules on top:

- Everything before the **prompt boundary** (`m_promptPos`) is a locked
  transcript of earlier commands and output.
- The text after the boundary is the **prompt line**, which the user edits.
- Output pushed by `print` goes in at the **insertion point** (`m_insertPos`).
- The window shows `m_visibleLines` lines starting at the **scroll top**
  (`m_topTextPosition`).
- Submitted commands go into a **history**. Up and Down walk it with an
  iterator, and the line being typed is saved in `m_historyPresent`.

The modules follow that structure:

- `ReplText` (`text.dfy`): the free functions `isEmpty` and `isBalanced`, each
  a predicate with a scanning method proved equal to it. It also holds the
  column counter that `print` keeps.
- `Scroll` (`scroll.dfy`): the arithmetic of `keepCursorVisible`. This is the
  intended behaviour as a function with its properties, next to the
  behaviour as written (see Findings).
- `Keys` (`keys.dfy`): the decision part of `keyPressed`, as a pure function
  from the key, the modifier state and the offsets to an action.
- `Console` (`console.dfy`): the class `Repl`. Its fields are the ones
  `ofxRepl` updates in place. It has one method per operation, and each
  method's postcondition gives the whole new state. The history iterator is
  an index, and `|history|` stands for `end()`. The class follows the code
  as written: every operation that scrolls runs `keepCursorVisible`'s loops
  as written (`KeepCursorVisibleAsWritten`), and `print` requires the
  insertion point inside the buffer, where the code's insert throws
  otherwise. The corrected versions of both (see Findings) stand beside
  them as `KeepCursorVisible` and `PrintClamped`.
- `Scenarios` (`scenarios.dfy`): short sessions driven through the public
  methods. Examples are typing and submitting a command with and without a
  listener, Return on a blank line, Backspace on the boundary, and Up then
  Down.

Some consequences of the code that are easy to miss:

- With a listener attached, `eval` prints a newline through `print`, which
  moves the prompt boundary. So the boundary ends one past the old one, not
  at the buffer end (`src/ofxRepl.cpp:159`, `:204-205`). The insertion point
  is at the buffer end.
- `printPrompt` leaves the insertion point at the start of the prompt
  string, not at the buffer end (`src/ofxRepl.cpp:231-236`).
- The listener receives the prompt line with its trailing newline. Only the
  history entry has it stripped (`src/ofxRepl.cpp:207-218`).
- `eval` does not reset the history iterator. It ends navigation, so the next
  `historyPrev` starts again from `end()`. The model keeps an iterator that
  was at `end()` at the new end.
- When the cursor lies in the locked region, every key that is not swallowed
  first moves the cursor to the end of the buffer. That includes Left, Home,
  Up and Down, which then go to the editor (`src/ofxRepl.cpp:109-111`).
- `keepCursorVisible` runs before a forwarded key reaches the editor, not
  after it (`src/ofxRepl.cpp:134`, `:142`).

## Model

| member | source | states |
|---|---|---|
| ReplText.IsEmptyScan | src/ofxRepl.cpp:380-388 | The scan answers true exactly when every character is one of space, tab, newline or carriage return. The empty string counts as empty. |
| ReplText.IsEmptyAppend | src/ofxRepl.cpp:380-388 | A concatenation is blank if and only if both parts are blank. |
| ReplText.IsBalancedScan | src/ofxRepl.cpp:361-377 | The early-exit scan answers true exactly when no prefix closes more parentheses than it opens and the whole string closes as many as it opens. |
| ReplText.DepthAppend | src/ofxRepl.cpp:361-377 | The balance counter over a concatenation is the sum of the counters over the parts. |
| ReplText.BalancedAppend | src/ofxRepl.cpp:361-377 | Two balanced commands written one after the other are balanced. |
| ReplText.BalancedWrap | src/ofxRepl.cpp:361-377 | Wrapping a balanced command in one pair of parentheses keeps it balanced. |
| ReplText.UnbalancedLeadingClose | src/ofxRepl.cpp:372-374 | A string that starts with a closing parenthesis is rejected. |
| ReplText.LastNewline | src/ofxRepl.cpp:149-153 | The result is the offset of the last newline, or -1 when there is none. No newline follows it. |
| ReplText.LinePosAfterLastNewline | src/ofxRepl.cpp:149-153 | After printing, the column is the number of characters after the printed text's last newline. If the text has no newline, it is the old column plus its length. |
| ReplText.LinePosAfterAppend | src/ofxRepl.cpp:149-153 | Printing two strings one after the other leaves the same column as printing their concatenation. |
| Scroll.NewlinesExtend | src/ofxRepl.cpp:288-292 | Counting one more offset at the high end adds one exactly when that offset holds a newline. |
| Scroll.NewlinesSplit | src/ofxRepl.cpp:288-292 | Newline counts over adjacent ranges add up. |
| Scroll.ScrollTop | src/ofxRepl.cpp:286-298 | The new top never lies before the old one. A cursor at or after the old top ends inside the window: fewer than the visible number of line breaks lie between the new top and the cursor. A top already past the cursor does not move. |
| Scroll.ScrollTopLeast | src/ofxRepl.cpp:293-297 | The window scrolls no further than needed: from every offset it moved past, the cursor was still a full window or more of line breaks away. |
| Scroll.ScrollTopTight | src/ofxRepl.cpp:293-297 | A window that scrolls stops with exactly one line break fewer than the window height between the top and the cursor. |
| Scroll.ScrollTopStays | src/ofxRepl.cpp:293 | If the cursor is already visible, the top stays where it is. |
| Scroll.ScrollTopIdempotent | src/ofxRepl.cpp:286-298 | Keeping the cursor visible a second time does not move the top again. |
| Scroll.AsWrittenFrom | src/ofxRepl.cpp:293-297 | The loop as written, started from a given top, stops at the first offset where its counter is below the window height. It never goes more than one past the cursor. |
| Scroll.AsWrittenStep | src/ofxRepl.cpp:294-295 | While the counter as written is at the window height or more, the cursor lies after the old top. Each step lowers the counter by the newline the top moves past. |
| Scroll.ScrollTopAsWritten | src/ofxRepl.cpp:286-298 | The top as written is the least offset from the old top where the counter drops below the window height, and it is at most one past the cursor. The counter starts as the newlines in (top, cursor], with offset \|text\| reading as the terminator. |
| Scroll.ScrollTopAsWrittenLeast | src/ofxRepl.cpp:293-297 | Any least offset with that property is the one computed. |
| Scroll.ScrollStopsShort | src/ofxRepl.cpp:288-297 | As written, an empty line at the old top makes the window stop one line short, so the cursor is left below the window. |
| Scroll.ScrollPassesCursor | src/ofxRepl.cpp:288-297 | As written, with one visible line and the cursor on a newline, the top moves past a cursor that was visible. |
| Scroll.ScrollExamples | src/ofxRepl.cpp:286-298 | The concrete inputs in the Findings table give the faulty tops stated there. |
| Keys.Route | src/ofxRepl.cpp:80-143 | Modifier+c clears the history with shift and the whole console without it, before anything else. Modifier+a is swallowed. Backspace is swallowed if and only if the cursor is at or before the boundary. Delete is swallowed if and only if the cursor is before it. Modifier+x is swallowed if and only if the cursor or either selection end is before it. The single character a forwarded Backspace or Delete removes lies on the prompt line, and so does the selection of a forwarded cut. The selection is not checked for Backspace, Delete or typed keys. Exactly these cases and Left on the boundary are swallowed; every other key leads to an action. A key reaching the editor or Return moves the cursor to the end first exactly when the cursor is in the locked region. Up, Down, Home and End act on the prompt line exactly when the cursor is on it, with Home going to the boundary and End to the buffer end. Left is swallowed if and only if the cursor is on the boundary. Return submits. |
| Keys.SelectionNotGuarded | src/ofxRepl.cpp:101-106 | Backspace, and likewise a typed key, with the cursor on the prompt line is forwarded even when the selection starts in the locked region. |
| Console.Resize | src/ofxRepl.cpp:280 | Resizing gives the requested length. It keeps the prefix when it shortens, and keeps the whole string padded with NULs when it grows. |
| Console.InsertTwice | src/ofxRepl.cpp:173-174 | Inserting a string and then a second one right after it is the same as inserting their concatenation. |
| Console.Repl.constructor | src/ofxRepl.cpp:35-50 | The buffer, the offsets and the column start at zero. The history is empty, with its iterator at end(), not navigating, and no listener is attached. |
| Console.Repl.Setup | src/ofxRepl.cpp:58-71 | A non-empty banner is printed at the insertion point, which must then lie inside the buffer, and the window is scrolled as print does. Then a prompt follows on a new line. The cursor and the boundary are at the end, and the insertion point is at the start of the prompt. The column is the one print counts. An empty banner leaves the scroll top alone and needs no insertion point. |
| Console.Repl.SetupWithListener | src/ofxRepl.cpp:74-77 | The same as setup, with the column and the scroll top stated, and afterwards the listener is attached. |
| Console.Repl.KeyPressed | src/ofxRepl.cpp:80-143 | The key takes effect as routed: each clear action, a swallowed key that changes nothing, a history step, a cursor jump, Return (the scroll loop as written, the cursor to the end, then eval), or forwarding to the editor with the cursor on the prompt line and the top where the scroll loop as written puts it. The key is forwarded exactly when it is routed to the editor. The locked region is unchanged unless the console is cleared. |
| Console.Repl.PromptLineKey | src/ofxRepl.cpp:108-142 | Up and Down step back and forward through the history. Home and End place the cursor. Return evaluates. Any other key scrolls the window by the loop as written. The locked region is not changed. |
| Console.Repl.ReturnPressed | src/ofxRepl.cpp:134-140 | A blank prompt line leaves the buffer, the offsets and the history alone, with the cursor at the end and the top where the scroll loop as written puts it. Otherwise the line is submitted as eval states, and print's scroll follows. The locked region is not changed. |
| Console.Repl.EditorStep | src/ofxRepl.cpp:142 | The editor's outcome for a forwarded key becomes the new buffer, cursor and selection, for an outcome that keeps the buffer at least as long as the boundary (see Left out). |
| Console.Repl.Print | src/ofxRepl.cpp:146-163 | The text is inserted at the insertion point. The cursor, the boundary and the insertion point each advance by its length. The column is the one print counts, and the top is where the scroll loop as written puts it. |
| Console.Repl.PrintEvalReturn | src/ofxRepl.cpp:171-177 | A non-empty result is inserted followed by a newline, with the window scrolled by both prints as written, and the column becomes 0. Only a non-empty result needs the insertion point inside the buffer. Then a prompt follows on a new line, and the cursor and the boundary are at the end. An empty result only adds the prompt. |
| Console.Repl.PrintClamped | src/ofxRepl.cpp:146-163 | The corrected print for late output: with no requirement on the insertion point, the text goes in at the insertion point or, if that lies past the end, at the end. It appears there whole, and the class invariant is kept. |
| Console.Repl.Clear | src/ofxRepl.cpp:185-190 | The buffer becomes the prompt string exactly. The cursor and the boundary are at its end, and the insertion point is 0. |
| Console.Repl.Eval | src/ofxRepl.cpp:200-227 | An empty or blank prompt line changes nothing at all. Otherwise the buffer gains one newline at its end, the boundary moves by one, and the top is where print's scroll loop as written puts it. The listener receives the untrimmed line, the history gains the line without one trailing newline, and navigation ends. Without a listener a fresh prompt is printed. The locked region is not changed. |
| Console.Repl.EvalLine | src/ofxRepl.cpp:204-224 | For a line that is not blank, the submission effect above. The cursor moves by the one newline with a listener, or goes to the end without one. The top is where print's scroll loop as written puts it. |
| Console.Repl.RecordLine | src/ofxRepl.cpp:207-219 | The line becomes the evaluator's text and, with a listener, is handed over. The history gains it without one trailing newline. An iterator at end() stays at end(), and navigation ends. |
| Console.Repl.PrintPrompt | src/ofxRepl.cpp:230-238 | A newline is appended only to a non-empty buffer that does not end in one, then the prompt. The cursor and the boundary are at the end, and the insertion point is where the prompt string begins. |
| Console.Repl.HistoryClear | src/ofxRepl.cpp:241-247 | The history is emptied with its iterator at end() and navigation off. The insertion point goes to 0, and the current prompt line is saved as the present line. |
| Console.Repl.HistoryPrev | src/ofxRepl.cpp:250-267 | Navigation starts at end() if it had not started, and leaving end() saves the prompt line. At the oldest entry the buffer and cursor are unchanged. Otherwise the iterator moves back one and the prompt line shows that entry. The locked region is not changed. |
| Console.Repl.HistoryNext | src/ofxRepl.cpp:270-276 | If navigation has not started or the iterator is at end(), nothing changes. Otherwise the iterator moves forward one, and the prompt line shows that entry, or the saved line on reaching end(). The locked region is not changed. |
| Console.Repl.HistoryShow | src/ofxRepl.cpp:279-283 | The text before the boundary is kept and the prompt line becomes the given text, with the cursor at the end. A boundary past the end pads with NULs. |
| Console.Repl.KeepCursorVisible | src/ofxRepl.cpp:286-298 | The corrected loops leave the top where Scroll.ScrollTop puts it. |
| Console.Repl.KeepCursorVisibleAsWritten | src/ofxRepl.cpp:286-298 | The loops as written leave the top where Scroll.ScrollTopAsWritten puts it. |
| Scenarios.PrevThenNext | src/ofxRepl.cpp:250-276 | One step back from the line being typed, then one step forward, gives back that line with the cursor at its end. |
| Scenarios.SubmitWithListener | src/ofxRepl.cpp:200-227 | Submitting "1+1" with a listener leaves "> 1+1\n" with the boundary at 3, and the line goes to both the listener and the history. |
| Scenarios.LateAnswerPastEnd | src/ofxRepl.cpp:100-106 | After a submission with a listener, Backspace at the end is forwarded, because the boundary lies inside the submitted line. Once the editor removes the newline, the insertion point (6) is past the end of the five-character buffer. |
| Scenarios.LateAnswerAppended | src/ofxRepl.cpp:146-163 | In that state the clamped print appends the answer at the end. |
| Scenarios.BlankLineIgnored | src/ofxRepl.cpp:200-203 | Return on a line of blanks leaves the buffer and the history as they were. |
| Scenarios.BackspaceAtPrompt | src/ofxRepl.cpp:100-106 | Backspace on the boundary is swallowed, so the buffer is unchanged and nothing is forwarded. |
| Scenarios.SubmitCommand | src/ofxRepl.cpp:200-238 | Submitting "(+ 1 2)" without a listener records it and prints a fresh prompt after it. The logger's warning line is not modelled (see Left out). |
| Scenarios.HistoryRoundTrip | src/ofxRepl.cpp:119-124 | After that submission, Up shows the command on the prompt line and Down restores the empty line. |

## Left out

- The logger bridge (`Logger`, `ofSetLoggerChannel`, `ofLogToConsole`, `ofLogWarning` at `src/ofxRepl.cpp:53-63`, `:212`, `:345-356`) is left out. It is logging I/O. Its lines would reach the buffer through `print`, but no modelled operation prints them.
- Console.Repl.Eval: once `setup()` has installed the logger bridge (`src/ofxRepl.cpp:61-63`), `eval` without a listener logs a warning (`:212`). The bridge prints "listener not set" and then a newline through `print` (`:345-349`), before `printPrompt` (`:223`), and each of those prints scrolls the window. The no-listener branch of `Submitted`, Console.Repl.EvalLine and Console.Repl.ReturnPressed leave that line and those scrolls out. So do the buffers in Scenarios.SubmitCommand and Scenarios.HistoryRoundTrip. The program's buffer after SubmitCommand is "> (+ 1 2)\nlistener not set\n> ", where the model has "> (+ 1 2)\n> ".
- The listener call `evalReplEvent` is a foreign call. It is a flag `hasListener` plus a ghost log `evaluated` of the strings handed over. When the listener answers is a concurrency matter the model does not cover. Its answer arrives through `print` / `printEvalReturn`.
- The modifier and shift state (`ofGetKeyPressed`, `getSuperAsModifier`) is host input and becomes parameters of `KeyPressed`.
- The `string` overloads (`src/ofxRepl.cpp:166-168`, `:180-182`) and the conversions between `string` and `wstring` are left out. All text is `seq<char>`.
- The static banner and prompt setters and getters (`src/ofxRepl.cpp:303-340`) are left out. The prompt is a constructor constant, and the banner is a parameter of `Setup`.
- `resize()`, fonts, drawing and colour schemes are rendering. `m_visibleLines` is a constant of the class.
- Console.Repl.KeepCursorVisibleAsWritten: assumes `m_visibleLines >= 1`, as do the class invariant and the functions of Scroll. The files of this model do not establish that bound: `setup()` calls `resize()` only for a non-empty banner (`src/ofxRepl.cpp:66-69`), and the body of `resize()` is not part of this model. At `m_visibleLines == 0`, the test at `:293` compares an unsigned counter with 0 and is always true. `m_topTextPosition++` then runs past the end of the buffer, reading out of range, and the loop never stops. The model does not cover that case.
- `ofxEditor::keyPressed` and `ofxEditor::clearText` have no bodies in the files of this model (`ofxEditor.h` is not part of this model). `EditorStep` takes the editor's outcome as parameters. `Clear` models `clearText` as emptying the buffer and putting the cursor at 0. It assumes that `clearText` leaves the scroll top and the selection alone.
- Console.Repl.EditorStep: assumes the editor never leaves the buffer shorter than the prompt boundary (`promptPos <= |newText|`). The guard at `src/ofxRepl.cpp:101-106` does not rule this out. It checks the selection only for cut, so Backspace, Delete or a typed key that replaces a selection starting in the locked region is forwarded (for instance Backspace with the cursor at 5, the boundary at 2 and the selection over 0..5). An editor that deletes the selection then cuts the buffer below the boundary. The class invariant `promptPos <= |text|` rests on this assumption, and the model does not cover the states the assumption excludes.
- Console.Repl.constructor: the source leaves `m_historyIter` default-constructed, not pointing at any element. The model starts it at `end()` of the empty history, which is 0.
- Console.Repl.RecordLine: the type of `m_history` is declared in ofxRepl.h, which is not part of this model. With a container whose `push_back` reallocates, the iterator is invalidated. The model gives the iterator index meaning, and an iterator at `end()` stays at the new end. Navigation restarts from `end()` in any case, because `eval` ends it.
- Console.Repl.Print: the `std::out_of_range` that `insert` throws for an insertion point past the end is not modelled. `Print` requires `insertPos <= |text|`. That state is reachable: Scenarios.LateAnswerPastEnd reaches it, and the listener's answer would then throw (see Findings). Console.Repl.PrintClamped is the corrected print.
- Console.Repl.HistoryClear, Console.Repl.HistoryPrev: `substr(m_promptPos)` at `src/ofxRepl.cpp:246` and `:258` throws `std::out_of_range` when the boundary lies past the end. The model rules that out only through the class invariant, which rests on the EditorStep assumption above.
- The `int` counter of `isBalanced` and the `unsigned int` / `int` widths in `keepCursorVisible` are unbounded integers here. Wrap-around would need a buffer of about 2^31 characters.
- Console.Repl.KeepCursorVisible / Console.Repl.KeepCursorVisibleAsWritten: these require the cursor to lie inside the buffer whenever it is after the top, because the source reads `m_text[i]` there. A top past the end of a buffer that `historyShow` shortened is not modelled beyond that requirement.
- Tokenising, line layout and tab expansion of the underlying editor are not part of this model.

## Findings

| source | as written | input that shows it | evidently intended | confidence | as-written member | corrected member |
|---|---|---|---|---|---|---|
| src/ofxRepl.cpp:286-298 | `keepCursorVisible` counts newlines at offsets (top, cursor], with the terminator at \|text\|. It then subtracts one for each newline at the offset the top moves past, including the old top, which it never counted. | "\na\nb\nc" with top 0, cursor 5 and 2 visible lines gives top 1, and the cursor is on the third line of a two-line window. "a\n" with top 0, cursor 1 and 1 visible line gives top 2, past a cursor that was visible. | Count the newlines at offsets [top, cursor), then advance the top until fewer than the window height remain. The cursor then ends inside the window, and the window moves no further than that needs. | medium: follows from the code's indexing, not executed | Scroll.ScrollTopAsWritten, Console.Repl.KeepCursorVisibleAsWritten, Scroll.ScrollStopsShort, Scroll.ScrollPassesCursor, Scroll.ScrollExamples | Scroll.ScrollTop, Console.Repl.KeepCursorVisible, Scroll.ScrollTopLeast, Scroll.ScrollTopTight |
| src/ofxRepl.cpp:146-163 | `print` inserts at `m_insertPos` without checking it against the buffer. With a listener, `eval` leaves the boundary one past its old place, inside the submitted line. So before the answer arrives, the user can remove the printed newline, or walk the history with Up and shorten the buffer below the insertion point. | Type "1+1" with a listener, press Return, then Backspace, which the editor applies. The buffer is "> 1+1" with the insertion point at 6, and the answer's `print` calls `insert(6, …)` on a five-character string, which throws `std::out_of_range`. | Output that arrives late is still written to the buffer and never fails. The insertion point is brought back inside the buffer first. | medium: follows from the code and from the editor deleting the character before the cursor, not executed | Scenarios.LateAnswerPastEnd, Console.Repl.Print | Console.Repl.PrintClamped, Scenarios.LateAnswerAppended |

=== FILE: console.dfy ===
/** The console (REPL) layer: one text buffer with a locked transcript region,
    an editable prompt line, an insertion point for pushed output, a scroll
    top, and a navigable command history. */
module Console {
  import opened ReplText
  import opened Scroll
  import opened Keys

  /** wstring::insert: `what` placed at offset `at`. */
  function Insert(s: seq<char>, at: nat, what: seq<char>): seq<char>
    requires at <= |s|
  {
    s[..at] + what + s[at..]
  }

  /** wstring::resize(n, 0): cut to `n` characters, or pad with NULs. */
  function Resize(s: seq<char>, n: nat): (r: seq<char>)
    ensures |r| == n
    ensures n <= |s| ==> r == s[..n]
    ensures n > |s| ==> r[..|s|] == s && forall i :: |s| <= i < n ==> r[i] == '\0'
  {
    if n <= |s| then s[..n] else s + seq(n - |s|, _ => '\0')
  }

  /** The prompt line: the text from the prompt boundary to the end. */
  function Tail(text: seq<char>, promptPos: nat): seq<char> {
    if promptPos < |text| then text[promptPos..] else []
  }

  /** eval acts only on a non-empty prompt line that is not all blanks. */
  predicate Submittable(text: seq<char>, promptPos: nat) {
    promptPos < |text| && !IsEmpty(text[promptPos..])
  }

  /** The history entry eval records: the prompt line without one trailing
      newline. */
  function StripNewline(s: seq<char>): seq<char> {
    if |s| > 0 && s[|s| - 1] == '\n' then s[..|s| - 1] else s
  }

  /** printPrompt starts a new line first when the buffer is non-empty and
      does not end in a newline. */
  predicate NeedsNewline(s: seq<char>) {
    |s| > 0 && s[|s| - 1] != '\n'
  }

  class Repl {
    /** The prompt string printed before each command. */
    const prompt: seq<char>
    /** Height of the viewport in lines (from the font and viewport size). */
    const visibleLines: nat
    /** Whether an evaluation listener is attached. */
    var hasListener: bool

    var text: seq<char>
    /** The cursor. */
    var position: nat
    /** Start of the editable prompt line; everything before it is locked. */
    var promptPos: nat
    /** Where pushed output is inserted. */
    var insertPos: nat
    /** First visible character. */
    var topTextPosition: nat
    /** Column of the last printed character. */
    var linePos: nat
    var highlightStart: nat
    var highlightEnd: nat

    /** Submitted commands, oldest first. */
    var history: seq<seq<char>>
    /** History iterator: an index into `history`, with |history| for end(). */
    var historyIter: nat
    var historyNavStarted: bool
    /** The uncommitted prompt line saved when navigation leaves end(). */
    var historyPresent: seq<char>
    /** The last text handed to the evaluator. */
    var evalText: seq<char>
    /** Every string passed to the listener, in order. */
    ghost var evaluated: seq<seq<char>>

    /** What every operation keeps: a usable viewport, the cursor and the
        prompt boundary inside the buffer, the iterator inside the history.
        The insertion point is deliberately not constrained: historyClear
        resets it to 0 and historyShow can cut the buffer below it. */
    ghost predicate Valid()
      reads this
    {
      visibleLines >= 1 && position <= |text| && promptPos <= |text| && historyIter <= |history|
    }

    constructor (prompt: seq<char>, visibleLines: nat)
      requires visibleLines >= 1
      ensures Valid()
      ensures this.prompt == prompt && this.visibleLines == visibleLines
      ensures text == [] && position == 0 && topTextPosition == 0
      ensures promptPos == 0 && insertPos == 0 && linePos == 0
      ensures history == [] && historyIter == 0 && !historyNavStarted
      ensures !hasListener && evaluated == []
    {
      this.prompt := prompt;
      this.visibleLines := visibleLines;
      hasListener := false;
      text := [];
      position := 0;
      promptPos := 0;
      insertPos := 0;
      topTextPosition := 0;
      linePos := 0;
      highlightStart := 0;
      highlightEnd := 0;
      history := [];
      historyIter := 0;
      historyNavStarted := false;
      historyPresent := [];
      evalText := [];
      evaluated := [];
    }

    /** setup(): print the banner (if any) and the first prompt. */
    method Setup(banner: seq<char>)
      requires Valid() && (banner != [] ==> insertPos <= |text|)
      modifies this`text, this`position, this`promptPos, this`insertPos, this`linePos, this`topTextPosition
      ensures Valid()
      ensures var printed := if banner != [] then Insert(old(text), old(insertPos), banner) else old(text);
        text == printed + (if NeedsNewline(printed) then "\n" else "") + prompt
      ensures position == |text| && promptPos == |text| && insertPos == |text| - |prompt|
      ensures linePos == LinePosAfter(old(linePos), banner)
      ensures topTextPosition ==
        if banner != [] then
          ScrollTopAsWritten(Insert(old(text), old(insertPos), banner), old(topTextPosition),
                             old(position) + |banner|, visibleLines)
        else old(topTextPosition)
    {
      if banner != [] {
        Print(banner);
      }
      PrintPrompt();
    }

    /** setup(listener): setup(), then attach the listener. */
    method SetupWithListener(banner: seq<char>, listener: bool)
      requires Valid() && (banner != [] ==> insertPos <= |text|)
      modifies this`text, this`position, this`promptPos, this`insertPos, this`linePos, this`topTextPosition, this`hasListener
      ensures Valid()
      ensures var printed := if banner != [] then Insert(old(text), old(insertPos), banner) else old(text);
        text == printed + (if NeedsNewline(printed) then "\n" else "") + prompt
      ensures position == |text| && promptPos == |text| && insertPos == |text| - |prompt|
      ensures linePos == LinePosAfter(old(linePos), banner)
      ensures topTextPosition ==
        if banner != [] then
          ScrollTopAsWritten(Insert(old(text), old(insertPos), banner), old(topTextPosition),
                             old(position) + |banner|, visibleLines)
        else old(topTextPosition)
      ensures hasListener == listener
    {
      Setup(banner);
      hasListener := listener;
    }

    /** The routing keyPressed applies in the current state. */
    function Routing(key: int, modifier: bool, shift: bool): Action
      reads this
    {
      Route(key, modifier, shift, position, promptPos, highlightStart, highlightEnd, |text|)
    }

    twostate predicate HistoryUnchanged()
      reads this
    {
      history == old(history) && historyIter == old(historyIter) &&
      historyNavStarted == old(historyNavStarted) && historyPresent == old(historyPresent) &&
      evalText == old(evalText) && evaluated == old(evaluated)
    }

    twostate predicate OutputUnchanged()
      reads this
    {
      promptPos == old(promptPos) && insertPos == old(insertPos) && linePos == old(linePos)
    }

    /** The locked region (the text before the prompt boundary) is as it was. */
    twostate predicate LockedKept()
      reads this
    {
      old(promptPos) <= |old(text)| && old(promptPos) <= |text| &&
      text[..old(promptPos)] == old(text)[..old(promptPos)]
    }

    /** The effect of keyPressed for each routing of the key. */
    twostate predicate Handled(a: Action)
      requires visibleLines >= 1
      reads this
    {
      match a
      case Swallow =>
        text == old(text) && position == old(position) && topTextPosition == old(topTextPosition) &&
        OutputUnchanged() && HistoryUnchanged()
      case ClearHistory =>
        HistoryCleared() && text == old(text) && position == old(position) &&
        promptPos == old(promptPos) && linePos == old(linePos) &&
        topTextPosition == old(topTextPosition) && evalText == old(evalText) && evaluated == old(evaluated)
      case ClearAll =>
        text == prompt && position == |prompt| && promptPos == |prompt| && insertPos == 0 &&
        linePos == old(linePos) && topTextPosition == old(topTextPosition) && HistoryUnchanged()
      case HistoryBack =>
        SteppedBack() && insertPos == old(insertPos) && linePos == old(linePos) &&
        topTextPosition == old(topTextPosition) && evalText == old(evalText) && evaluated == old(evaluated)
      case HistoryForward =>
        SteppedForward() && insertPos == old(insertPos) && linePos == old(linePos) &&
        topTextPosition == old(topTextPosition) && evalText == old(evalText) && evaluated == old(evaluated)
      case MoveCursor(to) =>
        position == to && text == old(text) &&
        topTextPosition == old(topTextPosition) && OutputUnchanged() && HistoryUnchanged()
      case Forward(snapped) =>
        position == (if snapped then old(|text|) else old(position)) &&
        topTextPosition == ScrollTopAsWritten(old(text), old(topTextPosition), position, visibleLines) &&
        text == old(text) && OutputUnchanged() && HistoryUnchanged()
      case Submit(snapped) =>
        Returned(snapped)
    }

    /** The effect of Return: the cursor (moved to the end first when
        `snapped`) is kept visible, then goes to the end, and eval runs. */
    twostate predicate Returned(snapped: bool)
      requires visibleLines >= 1
      reads this
    {
      var top := ScrollTopAsWritten(old(text), old(topTextPosition), if snapped then old(|text|) else old(position),
                                    visibleLines);
      historyPresent == old(historyPresent) && position == |text| &&
      if Submittable(old(text), old(promptPos)) then
        Submitted(old(text), old(promptPos), old(evaluated), old(history), old(historyIter)) &&
        topTextPosition == ScrollTopAsWritten(old(text) + "\n", top, old(|text|) + 1, visibleLines)
      else
        text == old(text) && topTextPosition == top && OutputUnchanged() && HistoryUnchanged()
    }

    /** keyPressed: clear shortcuts, the guard on removals before the prompt,
        the prompt-line navigation keys and Return; any other key is handed
        to the editor (`forward`), after the cursor has been moved out of the
        locked region and kept visible. Keys.Route holds the decision, this
        method carries it out. */
    method KeyPressed(key: int, modifier: bool, shift: bool) returns (forward: bool)
      requires Valid()
      modifies this`text, this`position, this`promptPos, this`insertPos, this`linePos,
        this`topTextPosition, this`history, this`historyIter, this`historyNavStarted,
        this`historyPresent, this`evalText, this`evaluated
      ensures Valid()
      ensures forward == old(Routing(key, modifier, shift)).Forward?
      ensures Handled(old(Routing(key, modifier, shift)))
      // the locked region is not touched, except by clearing the console
      ensures !old(Routing(key, modifier, shift)).ClearAll? ==> LockedKept()
    {
      var a := Route(key, modifier, shift, position, promptPos, highlightStart, highlightEnd, |text|);
      assert a == Routing(key, modifier, shift);
      match a {
        case ClearHistory =>
          HistoryClear();
          assert Handled(ClearHistory);
        case ClearAll =>
          Clear();
          assert Handled(ClearAll);
        case Swallow =>
          assert Handled(Swallow);
        case _ =>
          PromptLineKey(a);
      }
      forward := a.Forward?;
    }

    /** keyPressed for a key that acts on the prompt line: Up and Down walk
        the history, Home and End move the cursor, Return evaluates, and any
        other key is left to the editor once the cursor is on the prompt line
        and visible. */
    method PromptLineKey(a: Action)
      requires Valid()
      requires a.HistoryBack? || a.HistoryForward? || a.MoveCursor? || a.Submit? || a.Forward?
      requires a.MoveCursor? ==> a.to <= |text|
      modifies this`text, this`position, this`promptPos, this`insertPos, this`linePos,
        this`topTextPosition, this`history, this`historyIter, this`historyNavStarted,
        this`historyPresent, this`evalText, this`evaluated
      ensures Valid()
      ensures Handled(a)
      ensures LockedKept()
    {
      match a {
        case HistoryBack =>
          HistoryPrev();
          assert Handled(HistoryBack);
        case HistoryForward =>
          HistoryNext();
          assert Handled(HistoryForward);
        case MoveCursor(to) =>
          position := to;
          assert Handled(MoveCursor(to));
        case Submit(snapped) =>
          ReturnPressed(snapped);
          assert Handled(Submit(snapped));
        case Forward(snapped) =>
          // keep the cursor on the prompt line
          if snapped {
            position := |text|;
          }
          KeepCursorVisibleAsWritten();
          assert Handled(Forward(snapped));
      }
    }

    /** keyPressed on Return: the cursor is moved out of the locked region
        (when `snapped`) and kept visible, then goes to the end of the buffer,
        and the prompt line is evaluated. */
    method ReturnPressed(snapped: bool)
      requires Valid()
      modifies this`text, this`position, this`promptPos, this`insertPos, this`linePos,
        this`topTextPosition, this`history, this`historyIter, this`historyNavStarted,
        this`evalText, this`evaluated
      ensures Valid()
      ensures Returned(snapped)
      ensures LockedKept()
    {
      ghost var text0, promptPos0, evaluated0, history0, iter0 := text, promptPos, evaluated, history, historyIter;
      if snapped {
        position := |text|;
      }
      KeepCursorVisibleAsWritten();
      position := |text|;
      Eval();
      assert Submittable(text0, promptPos0) ==> Submitted(text0, promptPos0, evaluated0, history0, iter0);
    }

    /** The editor's handling of a key the console forwarded, given by its
        outcome: the new buffer, cursor and selection. */
    method EditorStep(newText: seq<char>, newPosition: nat, newHighlightStart: nat, newHighlightEnd: nat)
      requires Valid()
      requires newPosition <= |newText| && promptPos <= |newText|
      modifies this`text, this`position, this`highlightStart, this`highlightEnd
      ensures Valid()
      ensures text == newText && position == newPosition
      ensures highlightStart == newHighlightStart && highlightEnd == newHighlightEnd
    {
      text := newText;
      position := newPosition;
      highlightStart := newHighlightStart;
      highlightEnd := newHighlightEnd;
    }

    /** print: insert `what` at the insertion point; the cursor, the prompt
        boundary and the insertion point all move by |what|. */
    method Print(what: seq<char>)
      requires Valid() && insertPos <= |text|
      modifies this`text, this`position, this`promptPos, this`insertPos, this`linePos, this`topTextPosition
      ensures Valid()
      ensures text == Insert(old(text), old(insertPos), what)
      ensures position == old(position) + |what|
      ensures promptPos == old(promptPos) + |what|
      ensures insertPos == old(insertPos) + |what|
      ensures linePos == LinePosAfter(old(linePos), what)
      ensures topTextPosition == ScrollTopAsWritten(text, old(topTextPosition), position, visibleLines)
    {
      var toPrint := [];
      var column := linePos;
      var i := 0;
      while i < |what|
        invariant 0 <= i <= |what|
        invariant toPrint == what[..i]
        invariant column == LinePosAfter(linePos, what[..i])
      {
        assert what[..i + 1][..i] == what[..i];
        column := column + 1;
        if what[i] == '\n' {
          column := 0;
        }
        toPrint := toPrint + [what[i]];
        i := i + 1;
      }
      assert what[..|what|] == what;
      linePos := column;
      text := text[..insertPos] + toPrint + text[insertPos..];

      position := position + |toPrint|;
      promptPos := promptPos + |toPrint|;
      insertPos := insertPos + |toPrint|;

      KeepCursorVisibleAsWritten();
    }

    /** print for output that arrives after the prompt line was shortened:
        the insertion point is first brought back inside the buffer, so the
        output is appended at the end where print as written would insert
        past the end and fail. */
    method PrintClamped(what: seq<char>)
      requires Valid()
      modifies this`text, this`position, this`promptPos, this`insertPos, this`linePos, this`topTextPosition
      ensures Valid()
      ensures var at := if old(insertPos) <= old(|text|) then old(insertPos) else old(|text|);
        text == Insert(old(text), at, what) && text[at..at + |what|] == what && insertPos == at + |what|
      ensures position == old(position) + |what| && promptPos == old(promptPos) + |what|
      ensures linePos == LinePosAfter(old(linePos), what)
      ensures topTextPosition == ScrollTopAsWritten(text, old(topTextPosition), position, visibleLines)
    {
      if insertPos > |text| {
        insertPos := |text|;
      }
      Print(what);
    }

    /** printEvalReturn: print a non-empty result followed by a newline, then
        a fresh prompt. */
    method PrintEvalReturn(what: seq<char>)
      requires Valid() && (|what| > 0 ==> insertPos <= |text|)
      modifies this`text, this`position, this`promptPos, this`insertPos, this`linePos, this`topTextPosition
      ensures Valid()
      ensures var printed := if |what| > 0 then Insert(old(text), old(insertPos), what + "\n") else old(text);
        text == printed + (if NeedsNewline(printed) then "\n" else "") + prompt
      ensures position == |text| && promptPos == |text| && insertPos == |text| - |prompt|
      ensures linePos == if |what| > 0 then 0 else old(linePos)
      ensures topTextPosition ==
        if |what| > 0 then
          ScrollTopAsWritten(Insert(old(text), old(insertPos), what + "\n"),
                             ScrollTopAsWritten(Insert(old(text), old(insertPos), what), old(topTextPosition),
                                                old(position) + |what|, visibleLines),
                             old(position) + |what| + 1, visibleLines)
        else old(topTextPosition)
    {
      if |what| > 0 {
        Print(what);
        Print("\n");
        InsertTwice(old(text), old(insertPos), what, "\n");
      }
      PrintPrompt();
    }

    /** clear: empty the buffer and print a fresh prompt. */
    method Clear()
      requires Valid()
      modifies this`text, this`position, this`promptPos, this`insertPos
      ensures Valid()
      ensures text == prompt && position == |prompt| && promptPos == |prompt| && insertPos == 0
    {
      // clearText
      text := [];
      position := 0;

      promptPos := 0;
      insertPos := 0;
      PrintPrompt();
    }

    /** eval's effect on a prompt line it submits, apart from the cursor and
        the scroll top, relative to the state before it (buffer `text0` with
        prompt boundary `promptPos0`, listener log `evaluated0`, history
        `history0` with iterator `iter0`): a newline ends the line, the line
        is recorded, and a fresh prompt is printed unless a listener will
        answer. */
    ghost predicate Submitted(text0: seq<char>, promptPos0: nat, evaluated0: seq<seq<char>>,
                        history0: seq<seq<char>>, iter0: nat)
      reads this
    {
      Recorded(Tail(text0, promptPos0), evaluated0, history0, iter0) && linePos == 0 &&
      if hasListener then
        text == text0 + "\n" && promptPos == promptPos0 + 1 && insertPos == |text|
      else
        text == text0 + "\n" + prompt && promptPos == |text| && insertPos == |text| - |prompt|
    }

    /** eval's bookkeeping for a submitted `line`: it becomes the evaluator's
        text and (with a listener) is handed over; the history gains it
        without one trailing newline, an iterator at end() stays at end(),
        and navigation ends. */
    ghost predicate Recorded(line: seq<char>, evaluated0: seq<seq<char>>, history0: seq<seq<char>>, iter0: nat)
      reads this
    {
      evalText == line &&
      evaluated == evaluated0 + (if hasListener then [line] else []) &&
      history == history0 + [StripNewline(line)] &&
      historyIter == (if iter0 == |history0| then |history| else iter0) &&
      !historyNavStarted
    }

    /** eval: submit the prompt line unless it is empty or blank. */
    method Eval()
      requires Valid()
      modifies this`text, this`position, this`promptPos, this`insertPos, this`linePos,
        this`topTextPosition, this`history, this`historyIter, this`historyNavStarted,
        this`evalText, this`evaluated
      ensures Valid()
      ensures !Submittable(old(text), old(promptPos)) ==> unchanged(this)
      ensures Submittable(old(text), old(promptPos)) ==>
        Submitted(old(text), old(promptPos), old(evaluated), old(history), old(historyIter)) &&
        position == (if hasListener then old(position) + 1 else |text|) &&
        topTextPosition == ScrollTopAsWritten(old(text) + "\n", old(topTextPosition), old(position) + 1, visibleLines)
      ensures LockedKept()
    {
      if promptPos < |text| {
        var defun := text[promptPos..];
        var blank := IsEmptyScan(defun);
        if !blank {
          EvalLine();
        }
      }
    }

    /** The part of eval after the blank test. */
    method EvalLine()
      requires Valid() && Submittable(text, promptPos)
      modifies this`text, this`position, this`promptPos, this`insertPos, this`linePos,
        this`topTextPosition, this`history, this`historyIter, this`historyNavStarted,
        this`evalText, this`evaluated
      ensures Valid()
      ensures Submitted(old(text), old(promptPos), old(evaluated), old(history), old(historyIter))
      ensures position == (if hasListener then old(position) + 1 else |text|)
      ensures topTextPosition == ScrollTopAsWritten(old(text) + "\n", old(topTextPosition), old(position) + 1, visibleLines)
      ensures LockedKept()
    {
      var defun := text[promptPos..];
      ghost var text0 := text;
      insertPos := |text|;
      assert Insert(text0, |text0|, "\n") == text0 + "\n";
      Print("\n");
      assert text == text0 + "\n" && linePos == 0;

      RecordLine(defun);

      // go to the next line when no listener will answer
      if !hasListener {
        assert !NeedsNewline(text0 + "\n");
        PrintPrompt();
        assert text == (text0 + "\n") + prompt;
      }
    }

    /** The part of eval that hands the line over and records it. */
    method RecordLine(line: seq<char>)
      modifies this`evalText, this`evaluated, this`history, this`historyIter, this`historyNavStarted
      ensures Recorded(line, old(evaluated), old(history), old(historyIter))
    {
      evalText := line;
      // the listener is handed the whole line
      if hasListener {
        evaluated := evaluated + [evalText];
      }

      // the history keeps the line without its trailing newline
      var entry := line;
      if |entry| > 0 && entry[|entry| - 1] == '\n' {
        entry := entry[..|entry| - 1];
      }
      // an iterator at end() stays at end() when an entry is appended
      if historyIter == |history| {
        historyIter := |history| + 1;
      }
      history := history + [entry];
      historyNavStarted := false;
    }

    /** printPrompt: start a new line if needed and print the prompt; the
        cursor and the prompt boundary go to the end, the insertion point to
        the start of the prompt string. */
    method PrintPrompt()
      modifies this`text, this`insertPos, this`position, this`promptPos
      ensures text == old(text) + (if NeedsNewline(old(text)) then "\n" else "") + prompt
      ensures insertPos == |text| - |prompt|
      ensures position == |text| && promptPos == |text|
    {
      insertPos := |text|;
      if |text| > 0 && text[insertPos - 1] != '\n' {
        text := text + "\n";
        insertPos := insertPos + 1;
      }
      text := text + prompt;
      promptPos := |text|;
      position := promptPos;
    }

    /** historyClear's effect. */
    twostate predicate HistoryCleared()
      reads this
    {
      !historyNavStarted && history == [] && historyIter == 0 && insertPos == 0 &&
      historyPresent == Tail(old(text), old(promptPos))
    }

    /** historyClear (and clearHistory, which calls it): forget every entry;
        the current prompt line becomes the saved one. */
    method HistoryClear()
      requires Valid()
      modifies this`historyNavStarted, this`history, this`insertPos, this`historyIter, this`historyPresent
      ensures Valid()
      ensures HistoryCleared()
    {
      historyNavStarted := false;
      history := [];
      insertPos := 0;
      historyIter := |history|;
      historyPresent := text[promptPos..];
    }

    /** historyPrev's effect: navigation has started; the prompt line is saved
        when the iterator leaves end(); unless the iterator is already at the
        oldest entry it moves one entry back and the prompt line shows it. */
    twostate predicate SteppedBack()
      reads this
    {
      var start := if old(historyNavStarted) then old(historyIter) else |history|;
      historyNavStarted && history == old(history) && promptPos == old(promptPos) &&
      historyPresent == (if start == |history| then Tail(old(text), old(promptPos)) else old(historyPresent)) &&
      if start == 0 then
        historyIter == 0 && text == old(text) && position == old(position)
      else
        start <= |history| && historyIter == start - 1 &&
        text == Resize(old(text), promptPos) + history[start - 1] &&
        position == |text|
    }

    method HistoryPrev()
      requires Valid()
      modifies this`historyNavStarted, this`historyIter, this`historyPresent, this`text, this`position
      ensures Valid()
      ensures SteppedBack()
      ensures LockedKept()
    {
      if !historyNavStarted {
        historyIter := |history|;
        historyNavStarted := true;
      }

      if historyIter == |history| {
        historyPresent := text[promptPos..];
      }

      if historyIter == 0 {
        return;
      }

      historyIter := historyIter - 1;
      HistoryShow(history[historyIter]);
    }

    /** historyNext's effect: nothing unless navigation has started and the
        iterator is not at end(); otherwise the iterator moves one entry
        forward and the prompt line shows that entry, or the saved prompt
        line when the iterator reaches end(). */
    twostate predicate SteppedForward()
      reads this
    {
      history == old(history) && promptPos == old(promptPos) &&
      historyNavStarted == old(historyNavStarted) && historyPresent == old(historyPresent) &&
      if !old(historyNavStarted) || old(historyIter) == |history| then
        historyIter == old(historyIter) && text == old(text) && position == old(position)
      else
        historyIter == old(historyIter) + 1 && historyIter <= |history| &&
        text == Resize(old(text), promptPos) +
                (if historyIter == |history| then historyPresent else history[historyIter]) &&
        position == |text|
    }

    method HistoryNext()
      requires Valid()
      modifies this`historyIter, this`text, this`position
      ensures Valid()
      ensures SteppedForward()
      ensures LockedKept()
    {
      if !historyNavStarted || historyIter == |history| {
        return;
      }
      historyIter := historyIter + 1;
      HistoryShow(if historyIter == |history| then historyPresent else history[historyIter]);
    }

    /** historyShow: replace the prompt line with `what` and put the cursor at
        the end. */
    method HistoryShow(what: seq<char>)
      modifies this`text, this`position
      ensures text == Resize(old(text), promptPos) + what
      ensures promptPos <= old(|text|) ==>
        text[..promptPos] == old(text[..promptPos]) && text[promptPos..] == what
      ensures position == |text|
    {
      text := Resize(text, promptPos);
      text := text + what;
      position := |text|;
    }

    /** keepCursorVisible, with the line count taken over [top, cursor) (see
        KeepCursorVisibleAsWritten for the code as written). */
    method KeepCursorVisible()
      requires visibleLines >= 1 && (topTextPosition < position ==> position <= |text|)
      modifies this`topTextPosition
      ensures topTextPosition == ScrollTop(text, old(topTextPosition), position, visibleLines)
    {
      var curVisLine: nat := 0;
      var i := position;
      while i > topTextPosition
        invariant i <= position && (i < topTextPosition ==> i == position)
        invariant curVisLine == Newlines(text, i, position)
      {
        i := i - 1;
        if text[i] == '\n' {
          curVisLine := curVisLine + 1;
        }
      }
      ghost var top0 := topTextPosition;
      while curVisLine >= visibleLines
        invariant top0 <= topTextPosition
        invariant curVisLine == Newlines(text, topTextPosition, position)
        invariant ScrollTop(text, topTextPosition, position, visibleLines) == ScrollTop(text, top0, position, visibleLines)
        decreases position - topTextPosition
      {
        if text[topTextPosition] == '\n' {
          curVisLine := curVisLine - 1;
        }
        topTextPosition := topTextPosition + 1;
      }
    }

    /** keepCursorVisible as written: newlines are counted at offsets
        (top, cursor], offset |text| reading as the string terminator, and the
        count drops for each newline the top moves past. */
    method KeepCursorVisibleAsWritten()
      requires visibleLines >= 1 && (topTextPosition < position ==> position <= |text|)
      modifies this`topTextPosition
      ensures topTextPosition == ScrollTopAsWritten(text, old(topTextPosition), position, visibleLines)
    {
      var curVisLine: nat := 0;
      var i := position;
      while i > topTextPosition
        invariant i <= position && (i < topTextPosition ==> i == position)
        invariant curVisLine == Newlines(text, i + 1, position + 1)
      {
        assert i <= |text|;
        if At(text, i) == '\n' {
          curVisLine := curVisLine + 1;
        }
        i := i - 1;
      }
      ghost var top0 := topTextPosition;
      ghost var r := ScrollTopAsWritten(text, top0, position, visibleLines);
      while curVisLine >= visibleLines
        invariant top0 <= topTextPosition <= r
        invariant curVisLine == AsWrittenCount(text, top0, position, topTextPosition)
        decreases r - topTextPosition
      {
        AsWrittenStep(text, top0, position, visibleLines, topTextPosition);
        assert topTextPosition <= |text|;
        if At(text, topTextPosition) == '\n' {
          curVisLine := curVisLine - 1;
        }
        topTextPosition := topTextPosition + 1;
      }
    }
  }

  /** Inserting `a` and then `b` right after it is inserting `a + b`. */
  lemma InsertTwice(s: seq<char>, at: nat, a: seq<char>, b: seq<char>)
    requires at <= |s|
    ensures at + |a| <= |Insert(s, at, a)|
    ensures Insert(Insert(s, at, a), at + |a|, b) == Insert(s, at, a + b)
  {
    var t := Insert(s, at, a);
    assert t[..at + |a|] == s[..at] + a;
    assert t[at + |a|..] == s[at..];
  }
}

=== FILE: keys.dfy ===
/** The decision part of the console's key handler: given a key, the modifier
    state and the offsets, what the console does with the key before (or
    instead of) handing it to the ordinary editor. */
module Keys {

  // Key codes as openFrameworks defines them (ofConstants.h is not part of
  // this model); printable keys are their character codes.
  const KEY_BACKSPACE: int := 8
  const KEY_RETURN: int := 13
  const KEY_DEL: int := 127
  const KEY_LEFT: int := 356
  const KEY_UP: int := 357
  const KEY_DOWN: int := 359
  const KEY_HOME: int := 362
  const KEY_END: int := 363

  /** 'c' or its control code 3: clear the console (with shift: the history). */
  predicate IsClearKey(key: int) { key == 'c' as int || key == 3 }

  /** 'a' or 10, the codes keyPressed lists for select all. */
  predicate IsSelectAllKey(key: int) { key == 'a' as int || key == 10 }

  /** 'x' or its control code 24: cut. */
  predicate IsCutKey(key: int) { key == 'x' as int || key == 24 }

  /** What the console does with a key. */
  datatype Action =
    | ClearHistory          // modifier+shift+c: historyClear
    | ClearAll              // modifier+c: clear
    | Swallow               // ignored: select-all, a guarded removal, Left at the prompt
    | HistoryBack           // Up on the prompt line: historyPrev
    | HistoryForward        // Down on the prompt line: historyNext
    | MoveCursor(to: nat)   // Home / End on the prompt line
    | Submit(snapped: bool) // Return: cursor to the end, then eval
    | Forward(snapped: bool) // handed to the editor; `snapped`: the cursor was first moved to the end

  /** The routing of keyPressed. `position` is the cursor, `promptPos` the
      start of the prompt line, `highlightStart`/`highlightEnd` the selection
      and `length` the buffer length. */
  function Route(key: int, modifier: bool, shift: bool, position: nat, promptPos: nat,
                 highlightStart: nat, highlightEnd: nat, length: nat): (a: Action)
    // the clear shortcuts are taken before anything else
    ensures a.ClearHistory? <==> modifier && IsClearKey(key) && shift
    ensures a.ClearAll? <==> modifier && IsClearKey(key) && !shift
    ensures modifier && IsSelectAllKey(key) ==> a == Swallow
    // exactly these keys are swallowed; any other key reaches an action
    ensures a == Swallow <==>
      (modifier && IsSelectAllKey(key)) ||
      (position <= promptPos && key == KEY_BACKSPACE) ||
      (position < promptPos && key == KEY_DEL) ||
      ((position < promptPos || highlightStart < promptPos || highlightEnd < promptPos) &&
       modifier && IsCutKey(key)) ||
      (key == KEY_LEFT && position == promptPos)
    // the single character a forwarded Backspace or Delete removes (the one
    // before or at the cursor) lies on the prompt line, and a forwarded cut has
    // its selection there; the guard does not look at the selection for
    // Backspace, Delete or typed keys, which may replace a selection reaching
    // into the locked region ...
    ensures a.Forward? && key == KEY_BACKSPACE ==> promptPos < position
    ensures a.Forward? && key == KEY_DEL ==> promptPos <= position
    ensures a.Forward? && modifier && IsCutKey(key) ==>
      promptPos <= position && promptPos <= highlightStart && promptPos <= highlightEnd
    // ... and one on the prompt line is not swallowed
    ensures key == KEY_BACKSPACE ==> (a == Swallow <==> position <= promptPos)
    ensures key == KEY_DEL ==> (a == Swallow <==> position < promptPos)
    ensures modifier && IsCutKey(key) ==>
      (a == Swallow <==> position < promptPos || highlightStart < promptPos || highlightEnd < promptPos)
    // a cursor in the locked region is moved to the end before the key acts
    ensures a.Forward? || a.Submit? ==> (a.snapped <==> position < promptPos)
    // the console's own navigation applies only on the prompt line
    ensures a.HistoryBack? <==> key == KEY_UP && promptPos <= position
    ensures a.HistoryForward? <==> key == KEY_DOWN && promptPos <= position
    ensures a.MoveCursor? <==> (key == KEY_HOME || key == KEY_END) && promptPos <= position
    ensures a.MoveCursor? ==> a.to == (if key == KEY_END then length else promptPos)
    ensures key == KEY_LEFT ==> (a == Swallow <==> position == promptPos)
    ensures a.Submit? <==> key == KEY_RETURN
  {
    if modifier && IsClearKey(key) then
      if shift then ClearHistory else ClearAll
    else if modifier && IsSelectAllKey(key) then
      Swallow
    else if (position <= promptPos && key == KEY_BACKSPACE)
         || (position < promptPos && key == KEY_DEL)
         || ((position < promptPos || highlightStart < promptPos || highlightEnd < promptPos)
             && modifier && IsCutKey(key)) then
      Swallow
    else if position < promptPos then
      if key == KEY_RETURN then Submit(true) else Forward(true)
    else if key == KEY_LEFT && position == promptPos then
      Swallow
    else if key == KEY_UP then
      HistoryBack
    else if key == KEY_DOWN then
      HistoryForward
    else if key == KEY_END then
      MoveCursor(length)
    else if key == KEY_HOME then
      MoveCursor(promptPos)
    else if key == KEY_RETURN then
      Submit(false)
    else
      Forward(false)
  }

  /** The guard checks the selection only for cut: Backspace with the cursor
      on the prompt line is forwarded even when the selection (0 .. 5 here)
      starts in the locked region before the boundary at 2. */
  lemma SelectionNotGuarded()
    ensures Route(KEY_BACKSPACE, false, false, 5, 2, 0, 5, 5) == Forward(false)
    ensures Route('q' as int, false, false, 5, 2, 0, 5, 5) == Forward(false)
  {
  }
}

=== FILE: scenarios.dfy ===
/** Sessions with the console, from construction to the resulting buffer and
    history. */
module Scenarios {
  import opened ReplText
  import opened Keys
  import opened Console

  /** Walking one entry back into the history from the line being typed and
      forward again gives back that line, with the cursor at its end. */
  method PrevThenNext(r: Repl)
    requires r.Valid() && |r.history| > 0
    requires !r.historyNavStarted || r.historyIter == |r.history|
    modifies r
    ensures r.Valid()
    ensures r.text == old(r.text) && r.position == |r.text|
    ensures r.history == old(r.history) && r.historyIter == |r.history| && r.historyNavStarted
  {
    ghost var text0 := r.text;
    r.HistoryPrev();
    assert r.historyPresent == text0[r.promptPos..];
    assert r.text[..r.promptPos] == text0[..r.promptPos];
    r.HistoryNext();
    assert r.text == text0[..r.promptPos] + text0[r.promptPos..];
  }

  /** "1+1" typed after the first prompt of a console with a listener. */
  method TypedWithListener() returns (r: Repl)
    ensures fresh(r) && r.Valid()
    ensures r.prompt == "> " && r.visibleLines == 5 && r.hasListener
    ensures r.text == "> 1+1" && r.position == 5 && r.promptPos == 2
    ensures r.highlightStart == 0 && r.highlightEnd == 0
    ensures r.history == [] && r.evaluated == []
  {
    r := new Repl("> ", 5);
    r.SetupWithListener("", true);
    // the editor inserts the typed characters at the cursor
    r.EditorStep("> 1+1", 5, 0, 0);
  }

  /** Submitting that command with Return: the line is ended, handed to the
      listener and recorded; no new prompt is printed, and the prompt
      boundary has moved by the one newline only. */
  method SubmitWithListener() returns (r: Repl)
    ensures fresh(r)
    ensures r.text == "> 1+1\n"
    ensures r.history == ["1+1"] && r.evaluated == ["1+1"] && r.evalText == "1+1"
    ensures r.promptPos == 3 && r.position == 6 && r.insertPos == 6 && r.Valid() && r.hasListener
  {
    r := TypedWithListener();
    assert Tail(r.text, 2) == "1+1" && Submittable(r.text, 2) by {
      assert r.text[2..] == "1+1";
      assert !IsBlank(r.text[2..][0]);
    }
    var forward := r.KeyPressed(KEY_RETURN, false, false);
  }

  /** Before the listener answers, Backspace at the end of that line is
      handed to the editor (the boundary lies inside the submitted line), and
      the editor removes the newline eval printed. The insertion point where
      the answer goes is then past the end of the buffer: print would insert
      out of range there. */
  method LateAnswerPastEnd() returns (r: Repl)
    ensures fresh(r) && r.Valid() && r.hasListener
    ensures r.text == "> 1+1" && r.insertPos == 6 && r.insertPos > |r.text|
  {
    r := SubmitWithListener();
    var forward := r.KeyPressed(KEY_BACKSPACE, false, false);
    assert forward;
    // the editor removes the character before the cursor
    r.EditorStep("> 1+1", 5, 0, 0);
  }

  /** In that state the clamped print appends the answer at the end. */
  method LateAnswerAppended() returns (r: Repl)
    ensures fresh(r) && r.Valid()
    ensures r.text == "> 1+1" + "2" && r.insertPos == |r.text|
  {
    r := LateAnswerPastEnd();
    r.PrintClamped("2");
  }

  /** A line of blanks is not submitted: Return leaves the buffer and the
      history as they were. */
  method BlankLineIgnored() returns (r: Repl)
    ensures fresh(r)
    ensures r.text == ">   " && r.history == [] && r.evaluated == []
  {
    r := TypedBlanks();
    assert IsEmpty(">   "[2..]);
    var forward := r.KeyPressed(KEY_RETURN, false, false);
  }

  /** Three blanks typed after the first prompt. */
  method TypedBlanks() returns (r: Repl)
    ensures fresh(r) && r.Valid() && r.visibleLines == 5
    ensures r.text == ">   " && r.position == 4 && r.promptPos == 2
    ensures r.history == [] && r.evaluated == []
  {
    r := new Repl("> ", 5);
    r.Setup("");
    r.EditorStep(">   ", 4, 0, 0);
  }

  /** Backspace with the cursor on the prompt boundary removes nothing. */
  method BackspaceAtPrompt() returns (r: Repl, forward: bool)
    ensures fresh(r)
    ensures r.text == "> " && !forward
  {
    r := new Repl("> ", 5);
    r.Setup("");
    forward := r.KeyPressed(KEY_BACKSPACE, false, false);
  }

  /** "(+ 1 2)" typed after the first prompt of a console without a
      listener. */
  method TypedCommand() returns (r: Repl)
    ensures fresh(r) && r.Valid()
    ensures r.prompt == "> " && r.visibleLines == 5 && !r.hasListener
    ensures r.text == "> (+ 1 2)" && r.position == 9 && r.promptPos == 2
    ensures r.highlightStart == 0 && r.highlightEnd == 0
    ensures r.history == [] && r.historyIter == 0 && !r.historyNavStarted
  {
    r := new Repl("> ", 5);
    r.Setup("");
    // the editor inserts the typed characters at the cursor
    r.EditorStep("> (+ 1 2)", 9, 0, 0);
  }

  /** Submitting that command: the line is recorded and a fresh prompt
      follows it (the warning the logger bridge prints before the prompt is
      not part of this model). */
  method SubmitCommand() returns (r: Repl)
    ensures fresh(r) && r.Valid() && r.visibleLines == 5
    ensures r.text == "> (+ 1 2)\n> " && r.promptPos == |r.text| && r.position == |r.text|
    ensures r.history == ["(+ 1 2)"] && r.historyIter == |r.history| && !r.historyNavStarted
  {
    r := TypedCommand();
    assert Tail(r.text, 2) == "(+ 1 2)" && Submittable(r.text, 2) by {
      assert r.text[2..] == "(+ 1 2)";
      assert !IsBlank(r.text[2..][0]);
    }
    assert StripNewline("(+ 1 2)") == "(+ 1 2)";
    var forward := r.KeyPressed(KEY_RETURN, false, false);
  }

  /** After that submission, Up shows the command on the prompt line and
      Down brings back the empty line that was being typed. */
  method HistoryRoundTrip() returns (r: Repl, shown: seq<char>)
    ensures fresh(r)
    ensures shown == "(+ 1 2)"
    ensures r.text == "> (+ 1 2)\n> " && r.promptPos == |r.text|
  {
    r := SubmitCommand();
    var forward := r.KeyPressed(KEY_UP, false, false);
    assert r.text == "> (+ 1 2)\n> " + "(+ 1 2)";
    shown := r.text[r.promptPos..];
    forward := r.KeyPressed(KEY_DOWN, false, false);
  }
}

=== FILE: scroll.dfy ===
/** The scroll-window arithmetic of keepCursorVisible: which offset becomes the
    first visible character so that the cursor stays inside a window of
    `vis` lines. */
module Scroll {

  /** The character at offset `i`; offset |s| (and beyond) reads as the NUL
      terminator of a wide string, which is never a newline. */
  function At(s: seq<char>, i: nat): char {
    if i < |s| then s[i] else '\0'
  }

  /** The number of newlines at offsets lo, lo+1, ..., hi-1. */
  function Newlines(s: seq<char>, lo: nat, hi: nat): nat
    decreases hi - lo
  {
    if lo >= hi then 0 else (if At(s, lo) == '\n' then 1 else 0) + Newlines(s, lo + 1, hi)
  }

  /** Counting one more offset at the high end. */
  lemma {:induction false} NewlinesExtend(s: seq<char>, lo: nat, hi: nat)
    requires lo <= hi
    ensures Newlines(s, lo, hi + 1) == Newlines(s, lo, hi) + (if At(s, hi) == '\n' then 1 else 0)
    decreases hi - lo
  {
    if lo < hi {
      NewlinesExtend(s, lo + 1, hi);
    }
  }

  /** Counting over two adjacent ranges. */
  lemma {:induction false} NewlinesSplit(s: seq<char>, lo: nat, mid: nat, hi: nat)
    requires lo <= mid <= hi
    ensures Newlines(s, lo, hi) == Newlines(s, lo, mid) + Newlines(s, mid, hi)
    decreases mid - lo
  {
    if lo < mid {
      NewlinesSplit(s, lo + 1, mid, hi);
    }
  }

  /** The cursor at `pos` lies inside the window of `vis` lines that starts at
      `top`: it is not above the window and fewer than `vis` line breaks
      separate it from the window's first character. */
  predicate CursorVisible(s: seq<char>, top: nat, pos: nat, vis: nat) {
    top <= pos && Newlines(s, top, pos) < vis
  }

  /** The first visible offset after keeping the cursor visible: advance
      `top` one character at a time while `vis` or more newlines lie in
      [top, pos). This is the intended behaviour (see ScrollPassesCursor for
      the code as written). */
  function ScrollTop(s: seq<char>, top: nat, pos: nat, vis: nat): (r: nat)
    requires vis >= 1
    ensures top <= r
    ensures top <= pos ==> CursorVisible(s, r, pos, vis)
    ensures top > pos ==> r == top
    decreases pos - top
  {
    if Newlines(s, top, pos) < vis then top else ScrollTop(s, top + 1, pos, vis)
  }

  /** The window scrolls no further than needed: from every offset it moved
      past, the cursor was still `vis` or more line breaks away. */
  lemma {:induction false} ScrollTopLeast(s: seq<char>, top: nat, pos: nat, vis: nat, t: nat)
    requires vis >= 1 && top <= t < ScrollTop(s, top, pos, vis)
    ensures Newlines(s, t, pos) >= vis
    decreases pos - top
  {
    if t > top {
      ScrollTopLeast(s, top + 1, pos, vis, t);
    }
  }

  /** A window that scrolls stops as soon as the cursor fits: exactly
      `vis` - 1 line breaks then lie between the top and the cursor. */
  lemma ScrollTopTight(s: seq<char>, top: nat, pos: nat, vis: nat)
    requires vis >= 1 && top < ScrollTop(s, top, pos, vis)
    ensures Newlines(s, ScrollTop(s, top, pos, vis), pos) == vis - 1
  {
    var r := ScrollTop(s, top, pos, vis);
    ScrollTopLeast(s, top, pos, vis, r - 1);
  }

  /** A window the cursor is already inside does not scroll. */
  lemma ScrollTopStays(s: seq<char>, top: nat, pos: nat, vis: nat)
    requires vis >= 1 && CursorVisible(s, top, pos, vis)
    ensures ScrollTop(s, top, pos, vis) == top
  {
  }

  /** Keeping the cursor visible twice scrolls no further than once. */
  lemma ScrollTopIdempotent(s: seq<char>, top: nat, pos: nat, vis: nat)
    requires vis >= 1
    ensures ScrollTop(s, ScrollTop(s, top, pos, vis), pos, vis) == ScrollTop(s, top, pos, vis)
  {
    var r := ScrollTop(s, top, pos, vis);
    if top <= pos {
      ScrollTopStays(s, r, pos, vis);
    }
  }

  /** The counter keepCursorVisible keeps, as written: it starts as the number
      of newlines at offsets (top0, pos] and loses one for each newline the
      window's top has moved past (offsets top0 .. t-1). */
  function AsWrittenCount(s: seq<char>, top0: nat, pos: nat, t: nat): int {
    Newlines(s, top0 + 1, pos + 1) - Newlines(s, top0, t)
  }

  function Max(a: nat, b: nat): nat {
    if a < b then b else a
  }

  /** Advancing the top from `t`, as written, until the counter drops below
      `vis`; every offset in [top0, t) already kept it at `vis` or more. */
  function AsWrittenFrom(s: seq<char>, top0: nat, pos: nat, vis: nat, t: nat): (r: nat)
    requires vis >= 1 && top0 <= t <= Max(top0, pos + 1)
    ensures t <= r <= Max(top0, pos + 1)
    ensures AsWrittenCount(s, top0, pos, r) < vis
    ensures forall u :: t <= u < r ==> AsWrittenCount(s, top0, pos, u) >= vis
    decreases Max(top0, pos + 1) - t
  {
    if AsWrittenCount(s, top0, pos, t) < vis then t
    else
      assert t < Max(top0, pos + 1) by {
        if top0 <= pos {
          assert Newlines(s, top0, pos + 1) ==
            (if At(s, top0) == '\n' then 1 else 0) + Newlines(s, top0 + 1, pos + 1);
        }
      }
      AsWrittenFrom(s, top0, pos, vis, t + 1)
  }

  /** One step of the as-written loop: while the counter is at `vis` or more
      the cursor lies after the old top, and moving the top past offset `t`
      drops the counter by the newline found there. */
  lemma AsWrittenStep(s: seq<char>, top0: nat, pos: nat, vis: nat, t: nat)
    requires vis >= 1 && top0 <= t
    requires AsWrittenCount(s, top0, pos, t) >= vis
    ensures top0 < pos
    ensures AsWrittenCount(s, top0, pos, t + 1) ==
      AsWrittenCount(s, top0, pos, t) - (if At(s, t) == '\n' then 1 else 0)
  {
    NewlinesExtend(s, top0, t);
  }

  /** The first visible offset keepCursorVisible computes as written: the
      least offset from `top` on at which its counter is below `vis`, never
      more than one past the cursor. */
  function ScrollTopAsWritten(s: seq<char>, top: nat, pos: nat, vis: nat): (r: nat)
    requires vis >= 1
    ensures top <= r <= Max(top, pos + 1)
    ensures AsWrittenCount(s, top, pos, r) < vis
    ensures forall t :: top <= t < r ==> AsWrittenCount(s, top, pos, t) >= vis
  {
    AsWrittenFrom(s, top, pos, vis, top)
  }

  /** The as-written top is the least offset from `top` on at which the
      counter is below `vis`: any such least offset is the one computed. */
  lemma ScrollTopAsWrittenLeast(s: seq<char>, top: nat, pos: nat, vis: nat, t: nat)
    requires vis >= 1 && top <= t
    requires AsWrittenCount(s, top, pos, t) < vis
    requires forall u :: top <= u < t ==> AsWrittenCount(s, top, pos, u) >= vis
    ensures ScrollTopAsWritten(s, top, pos, vis) == t
  {
  }

  /** As written, with an empty line at the old top, keepCursorVisible
      scrolls one line too few and leaves the cursor below the window: the
      newline at the old top is subtracted although it was never counted.
      (For instance "\na\nb\nc" with the top at 0, the cursor at 5 and two
      visible lines: the top moves to 1, and the cursor is on the third line
      from there.) */
  lemma ScrollStopsShort(s: seq<char>, top: nat, pos: nat, vis: nat)
    requires vis >= 1 && top < pos
    requires At(s, top) == '\n' && At(s, pos) != '\n'
    requires Newlines(s, top + 1, pos) == vis
    ensures ScrollTopAsWritten(s, top, pos, vis) == top + 1
    ensures !CursorVisible(s, top + 1, pos, vis)
  {
    NewlinesExtend(s, top + 1, pos);
    assert AsWrittenCount(s, top, pos, top) == vis;
    assert Newlines(s, top, top + 1) == 1;
    assert AsWrittenCount(s, top, pos, top + 1) == vis - 1;
    ScrollTopAsWrittenLeast(s, top, pos, vis, top + 1);
  }

  /** As written, with one visible line and the cursor on the newline that
      ends the top line, keepCursorVisible scrolls past the cursor, which was
      visible before: the character under the cursor is counted as a line
      break above it. (For instance "a\n" with the top at 0 and the cursor
      at 1: the top moves to 2.) */
  lemma ScrollPassesCursor(s: seq<char>, top: nat, pos: nat)
    requires top < pos < |s| && s[pos] == '\n'
    requires Newlines(s, top, pos) == 0
    ensures CursorVisible(s, top, pos, 1)
    ensures ScrollTopAsWritten(s, top, pos, 1) == pos + 1
    ensures !CursorVisible(s, pos + 1, pos, 1)
  {
    NewlinesExtend(s, top + 1, pos);
    NewlinesExtend(s, top, pos);
    assert Newlines(s, top + 1, pos + 1) == 1;
    forall u | top <= u < pos + 1 ensures AsWrittenCount(s, top, pos, u) >= 1 {
      NewlinesSplit(s, top, u, pos);
    }
    ScrollTopAsWrittenLeast(s, top, pos, 1, pos + 1);
  }

  /** The concrete inputs named above. */
  lemma ScrollExamples()
    ensures ScrollTopAsWritten("\na\nb\nc", 0, 5, 2) == 1 && !CursorVisible("\na\nb\nc", 1, 5, 2)
    ensures ScrollTopAsWritten("a\n", 0, 1, 1) == 2 && CursorVisible("a\n", 0, 1, 1)
  {
    var s := "\na\nb\nc";
    assert s[0] == '\n' && s[1] == 'a' && s[2] == '\n' && s[3] == 'b' && s[4] == '\n' && s[5] == 'c';
    assert Newlines(s, 4, 5) == 1;
    assert Newlines(s, 2, 5) == 2;
    assert Newlines(s, 1, 5) == 2;
    ScrollStopsShort(s, 0, 5, 2);
    var u := "a\n";
    assert u[1] == '\n' && Newlines(u, 0, 1) == 0;
    ScrollPassesCursor(u, 0, 1);
  }
}

=== FILE: text.dfy ===
/** Side-effect-free text helpers of the console: the whitespace test used by
    eval, the parenthesis balance test, and the column counter kept by print. */
module ReplText {

  /** One of the four characters the console treats as blank: " \t\n\r". */
  predicate IsBlank(c: char) {
    c == ' ' || c == '\t' || c == '\n' || c == '\r'
  }

  /** isEmpty: every character of `s` is blank (so the empty string is empty). */
  predicate IsEmpty(s: seq<char>) {
    forall i :: 0 <= i < |s| ==> IsBlank(s[i])
  }

  /** The scan isEmpty performs: stop at the first non-blank character. */
  method IsEmptyScan(s: seq<char>) returns (empty: bool)
    ensures empty == IsEmpty(s)
  {
    var i := 0;
    while i < |s|
      invariant 0 <= i <= |s|
      invariant forall j :: 0 <= j < i ==> IsBlank(s[j])
    {
      if !IsBlank(s[i]) {
        return false;
      }
      i := i + 1;
    }
    return true;
  }

  /** A blank string stays blank only if what is appended is blank too. */
  lemma IsEmptyAppend(a: seq<char>, b: seq<char>)
    ensures IsEmpty(a + b) <==> IsEmpty(a) && IsEmpty(b)
  {
    if IsEmpty(a + b) {
      forall i | 0 <= i < |a| ensures IsBlank(a[i]) { assert a[i] == (a + b)[i]; }
      forall i | 0 <= i < |b| ensures IsBlank(b[i]) { assert b[i] == (a + b)[|a| + i]; }
    }
  }

  /** How one character moves the parenthesis balance. */
  function Delta(c: char): int {
    if c == '(' then 1 else if c == ')' then -1 else 0
  }

  /** The balance after scanning all of `s`: opening minus closing parentheses. */
  function Depth(s: seq<char>): int {
    if s == [] then 0 else Depth(s[..|s| - 1]) + Delta(s[|s| - 1])
  }

  /** isBalanced: no prefix closes more parentheses than it opens, and the
      whole string closes exactly as many as it opens. */
  predicate IsBalanced(s: seq<char>) {
    Depth(s) == 0 && forall k :: 0 <= k <= |s| ==> Depth(s[..k]) >= 0
  }

  /** The scan isBalanced performs: fail as soon as the balance goes negative. */
  method IsBalancedScan(s: seq<char>) returns (balanced: bool)
    ensures balanced == IsBalanced(s)
  {
    var balance := 0;
    var i := 0;
    while i < |s|
      invariant 0 <= i <= |s|
      invariant balance == Depth(s[..i])
      invariant forall k :: 0 <= k <= i ==> Depth(s[..k]) >= 0
    {
      assert s[..i + 1][..i] == s[..i];
      if s[i] == '(' {
        balance := balance + 1;
      } else if s[i] == ')' {
        balance := balance - 1;
      }
      if balance < 0 {
        return false;
      }
      i := i + 1;
    }
    assert s[..|s|] == s;
    return balance == 0;
  }

  /** The balance of a concatenation is the sum of the balances. */
  lemma {:induction false} DepthAppend(a: seq<char>, b: seq<char>)
    ensures Depth(a + b) == Depth(a) + Depth(b)
    decreases |b|
  {
    if b == [] {
      assert a + b == a;
    } else {
      var b' := b[..|b| - 1];
      assert (a + b)[..|a + b| - 1] == a + b';
      DepthAppend(a, b');
    }
  }

  /** Two balanced commands written one after the other are balanced. */
  lemma BalancedAppend(a: seq<char>, b: seq<char>)
    requires IsBalanced(a) && IsBalanced(b)
    ensures IsBalanced(a + b)
  {
    DepthAppend(a, b);
    forall k | 0 <= k <= |a + b| ensures Depth((a + b)[..k]) >= 0 {
      if k <= |a| {
        assert (a + b)[..k] == a[..k];
      } else {
        assert (a + b)[..k] == a + b[..k - |a|];
        DepthAppend(a, b[..k - |a|]);
        assert a[..|a|] == a;
      }
    }
  }

  /** Wrapping a balanced command in parentheses keeps it balanced. */
  lemma BalancedWrap(s: seq<char>)
    requires IsBalanced(s)
    ensures IsBalanced(['('] + s + [')'])
  {
    var w := ['('] + s + [')'];
    DepthAppend(['('] + s, [')']);
    DepthAppend(['('], s);
    assert Depth(['(']) == 1 by { assert ['('][..0] == []; }
    assert Depth([')']) == -1 by { assert [')'][..0] == []; }
    forall k | 0 <= k <= |w| ensures Depth(w[..k]) >= 0 {
      if k == 0 {
      } else if k <= |s| + 1 {
        assert w[..k] == ['('] + s[..k - 1];
        DepthAppend(['('], s[..k - 1]);
      } else {
        assert w[..k] == w;
      }
    }
  }

  /** A string that closes a parenthesis before opening one is not balanced. */
  lemma UnbalancedLeadingClose(s: seq<char>)
    requires |s| > 0 && s[0] == ')'
    ensures !IsBalanced(s)
  {
    assert s[..1] == [')'];
    assert [')'][..0] == [];
  }

  /** The column print keeps: the characters written since the last newline
      (`linePos` is the column before `s` is written). */
  function LinePosAfter(linePos: nat, s: seq<char>): nat {
    if s == [] then linePos
    else if s[|s| - 1] == '\n' then 0
    else LinePosAfter(linePos, s[..|s| - 1]) + 1
  }

  /** Index of the last newline of `s`, or -1 when it has none. */
  function LastNewline(s: seq<char>): (k: int)
    ensures -1 <= k < |s|
    ensures k >= 0 ==> s[k] == '\n'
    ensures forall j :: k < j < |s| ==> s[j] != '\n'
  {
    if s == [] then -1
    else if s[|s| - 1] == '\n' then |s| - 1
    else LastNewline(s[..|s| - 1])
  }

  /** The column after printing `s` counts the characters after its last
      newline, or adds |s| to the old column when `s` has no newline. */
  lemma {:induction false} LinePosAfterLastNewline(linePos: nat, s: seq<char>)
    ensures LinePosAfter(linePos, s) ==
      if LastNewline(s) < 0 then linePos + |s| else |s| - 1 - LastNewline(s)
    decreases |s|
  {
    if s != [] && s[|s| - 1] != '\n' {
      LinePosAfterLastNewline(linePos, s[..|s| - 1]);
    }
  }

  /** Printing `a` then `b` leaves the same column as printing `a + b`. */
  lemma {:induction false} LinePosAfterAppend(linePos: nat, a: seq<char>, b: seq<char>)
    ensures LinePosAfter(linePos, a + b) == LinePosAfter(LinePosAfter(linePos, a), b)
    decreases |b|
  {
    if b == [] {
      assert a + b == a;
    } else {
      assert (a + b)[..|a + b| - 1] == a + b[..|b| - 1];
      LinePosAfterAppend(linePos, a, b[..|b| - 1]);
    }
  }
}
